=== FILE: README.md ===
# C-DNS exporter core, in Dafny

This project models the core of a C-DNS (RFC 8618) exporter library. It verifies the model with Dafny. The model has three parts.

- **DNS code constants** (`dns.dfy`, module `Dns`).
  - The C++ enumerations `OpCodes` (underlying type `uint8_t`) and `RrTypes` (underlying type `uint16_t`) become newtypes of the same range.
  - Each enumerator is a named constant. Its value comes from the C++ rule for enumerators: an explicit initialiser, an alias of an earlier enumerator, or the previous value plus one.
  - The declarations are kept as written, including which enumerators carry an initialiser.
  - The proofs establish the resulting codes, the gaps between the runs, the two aliases, and that the values are otherwise pairwise distinct.
- **The block and its deduplicating tables.**
  - `entities.dfy` (module `BlockEntities`) holds the entity structs. Each has a field-by-field `==` and `!=` and a `key()`.
  - `block_table.dfy` (module `BlockTables`) holds the find-or-append specification of a block table and its properties.
  - `block.dfy` (module `Block`) holds the `CdnsBlock` class. Its nine tables and three record collections are fields that its `add_*` methods update in place.
- **The exporter lifecycle.**
  - `output_log.dfy` (module `OutputLog`) records every request made to the encoder in a ghost event log. An automaton, `Run`, reads that log and follows the C-DNS file format: a header, blocks, then the CBOR break, output after output.
  - `exporter.dfy` (module `Exporter`) holds the `CdnsExporter` class. Its invariant ties `blocksWritten` to the automaton's state, so every public method but the destructor is proved to keep every output either empty or a well-formed file, and the destructor leaves it empty or terminated.
  - Three client methods use only contracts: the exporter's, plus the block's `AddIpAddress`. In `BufferingScenario` that call stands in for the address resolution that `add_question_response_record` does inside the block, which is not modelled:
    - `BufferingScenario`: with blocks of at most two items, two records from one client address share index 0 of the address table, and the second record fills the block and writes it.
    - `DeferredParametersScenario`: a parameter set chosen while a block is buffered applies only from the next block on (the comment at `src/cdns.h:152-158`).
    - `RotationScenario`: rotating an output with no block written writes nothing but the switch, while rotating after an export closes the file with a break (the comment at `src/cdns.h:113-118`).
- `wrappers.dfy` provides the `Option` type.

## Model

| member | source | states |
|---|---|---|
| Dns.RunCountsUp | src/dns.h:25-109 | enumerators without initialiser after an explicit `= v` take v+1, v+2, … (C++ implicit numbering) |
| Dns.OpCodesEnumerator | src/dns.h:11-19 | the opcode declared at position i is i for i < 3 and i+1 after (3 is skipped); each is at most 15 and none is 3 |
| Dns.OpCodesValues | src/dns.h:11-19 | QUERY=0, IQUERY=1, STATUS=2, NOTIFY=4, UPDATE=5, DSO=6 |
| Dns.OpCodesDistinct | src/dns.h:11-19 | two opcodes are equal exactly when they are the same enumerator |
| Dns.RrTypesRuns | src/dns.h:25-109 | closed form of every RR type by position: A..TLSA = 1..52, HIP..CDS = 55..59, SPF..EUI64 = 99..109, TKEY..CAA = 249..257, TA, DLV = 32768, 32769, aliases 51 and 37 |
| Dns.RrTypesEnumerator | src/dns.h:25-109 | every RR type lies in one of the declared runs, so it is non-zero, fits `uint16_t`, and 53, 54, 60..98, 110..248, 258..32767 are never used |
| Dns.RrTypesValues | src/dns.h:27-105 | A=1, CNAME=5, MX=15, AAAA=28, SRV=33, CERTIFICATE=37, OPT=41, DS=43, RRSIG=46, DNSKEY=48, NSEC3PARAM=51, TLSA=52, HIP=55, CDS=59, SPF=99, EUI64=109, TKEY=249, TYPE_ANY=255, CAA=257, TA=32768, DLV=32769 |
| Dns.AliasesEqualTargets | src/dns.h:107-108 | NSEC3PARAMS == NSEC3PARAM == 51 and CERT == CERTIFICATE == 37 |
| Dns.RrTypesDistinct | src/dns.h:25-109 | two RR type enumerators share a value exactly when one is the alias of the other |
| BlockEntities.ClassType.Eq | src/block.h:34-36 | true exactly when both type and class match |
| BlockEntities.ClassType.Ne | src/block.h:43-45 | exactly the negation of equality |
| BlockEntities.QueryResponseSignature.Eq | src/block.h:73-87 | true exactly when all 17 fields match, so no field is left out of the comparison |
| BlockEntities.QueryResponseSignature.Ne | src/block.h:94-96 | exactly the negation of equality |
| BlockEntities.Question.Eq | src/block.h:135-137 | true exactly when name index and classtype index match |
| BlockEntities.Question.Ne | src/block.h:144-146 | exactly the negation of equality |
| BlockEntities.RR.Eq | src/block.h:170-173 | true exactly when name index, classtype index, 8-bit ttl and rdata index match |
| BlockEntities.RR.Ne | src/block.h:180-182 | exactly the negation of equality |
| BlockEntities.MalformedMessageData.Eq | src/block.h:209-214 | true exactly when address index, port, transport flags and payload bytes match |
| BlockEntities.MalformedMessageData.Ne | src/block.h:221-223 | exactly the negation of equality |
| BlockEntities.AddressEventCount.Eq | src/block.h:306-310 | true exactly when type, code, transport flags and address index match |
| BlockEntities.AddressEventCount.Ne | src/block.h:317-319 | exactly the negation of equality |
| BlockEntities.StringItem.Eq | src/block.h:356-358 | true exactly when the bytes match |
| BlockEntities.StringItem.Ne | src/block.h:365-367 | exactly when the bytes differ |
| BlockEntities.IndexListItem.Eq | src/block.h:390-392 | true exactly when the whole index lists match, in order |
| BlockEntities.IndexListItem.Ne | src/block.h:399-401 | exactly when the lists differ |
| BlockEntities.KeysIdentify | src/block.h:348-411 | for every deduplicated entity, equal keys exactly when the entities are equal, including the derived keys of string and list items |
| BlockEntities.IndexListsAreOrdered | src/block.h:390-392 | swapping two different indices of a list gives a different list |
| BlockTables.LookupFrom | src/block.h:432 | the first index at or after a position whose entry has the key, or None when no later entry has it |
| BlockTables.Lookup | src/block.h:432 | `find`: an index whose entry has the key exactly when some entry has it |
| BlockTables.FindOrAdd | src/block.h:446-448 | `add`: the returned index holds an entry with the value's key; the table is unchanged when the key was present, and otherwise grows by the value alone, at index old size |
| BlockTables.FindOrAddKeepsDistinct | src/block.h:429-439 | adding keeps a table free of duplicate keys |
| BlockTables.FindOrAddExtends | src/block.h:429-439 | adding never moves or replaces an existing entry and grows the table by at most one |
| BlockTables.FindOrAddIdempotent | src/block.h:429-535 | adding a value with the same key again returns the same index and leaves the table unchanged |
| BlockTables.FindOrAddSeparates | src/block.h:429-535 | two values added in turn get the same index exactly when their keys are equal, and the first entry stays in place |
| BlockTables.AddAll | src/block.h:429-535 | adding a sequence of values returns one index per value |
| BlockTables.AddAllFresh | src/block.h:426-428 | distinct new values are appended in order, the n-th at index old size + n |
| BlockTables.InsertionOrder | src/block.h:426-428 | distinct values added to an empty table get indices 0, 1, 2, … and are stored in that order |
| Block.Cleared | src/cdns.h:106 | a cleared block has no items and keeps its parameters and preamble |
| Block.CdnsBlock.constructor | src/cdns.h:47 | a new block is empty, with the given parameter set and its index in the preamble |
| Block.CdnsBlock.GetItemCount | src/cdns.h:138-140 | the item count of the block's content |
| Block.CdnsBlock.AddIpAddress | src/block.h:429-439 | returns the index of an equal address if present, otherwise appends exactly `StringItem(address)`; the entry at the index is the address; no other table or sequence changes |
| Block.CdnsBlock.AddClasstype | src/block.h:446-448 | find-or-append into the classtype table only; the entry at the index equals the argument |
| Block.CdnsBlock.AddNameRdata | src/block.h:455-465 | as for addresses, in the name/RDATA table only (a separate table from the address table) |
| Block.CdnsBlock.AddQrSignature | src/block.h:472-474 | find-or-append into the signature table only; the entry at the index equals the argument |
| Block.CdnsBlock.AddQuestionList | src/block.h:481-491 | find-or-append of the whole list into the question-list table only |
| Block.CdnsBlock.AddQuestion | src/block.h:498-500 | find-or-append into the question table only |
| Block.CdnsBlock.AddRrList | src/block.h:507-517 | find-or-append of the whole list into the RR-list table only (separate from the question lists) |
| Block.CdnsBlock.AddRr | src/block.h:524-526 | find-or-append into the RR table only |
| Block.CdnsBlock.AddMalformedMessageData | src/block.h:533-535 | find-or-append into the malformed message data table only |
| Block.CdnsBlock.AddQuestionResponseRecord | src/cdns.h:73 | appends the record and nothing else; the item count grows by one; returns true exactly when the maximum item count is reached |
| Block.CdnsBlock.Clear | src/cdns.h:106 | every table, record sequence and count is emptied, statistics are zeroed, parameters are kept |
| Block.CdnsBlock.SetBlockParameters | src/cdns.h:107-108 | only the parameter set and the preamble's parameter index change |
| Block.ListOrderMatters | src/block.h:481-517 | a list and the same list with two different entries swapped get different indices |
| Block.SignaturesSeparate | src/block.h:73-87 | two signatures get the same index exactly when they are equal in all 17 fields |
| Block.FirstAfterClearIsZero | src/cdns.h:106 | after a clear, the first value added to any of the nine tables of the block gets index 0 |
| Block.AddAfterClear | src/cdns.h:106 | on a block object: after `Clear`, the first address and class/type added get index 0 and are the only entries of their tables |
| OutputLog.RunAppend | src/cdns.h:98 | the automaton on a log one event longer takes one more step |
| OutputLog.RunPrefix | src/cdns.h:98 | every prefix of a well-formed log is well formed |
| OutputLog.CurrentOutput | src/cdns.h:129 | the events since the last rotation contain no rotation |
| OutputLog.StateDescribesCurrentOutput | src/cdns.h:180-184 | each automaton state describes the current output: empty, or a header followed by the counted blocks (at least one once a block is written), closed by a break once terminated |
| OutputLog.RotateClosesFile | src/cdns.h:126-129 | an output is switched away from only when it is empty or holds a complete file: a header, at least one block, the break |
| OutputLog.CdnsEncoder.WriteFileHeader | src/cdns.h:180-184 | logs one file header with the given parameter sets, keeps the output, and returns the header's byte count |
| OutputLog.CdnsEncoder.WriteBlock | src/cdns.h:93-98 | logs one block, keeps the output, and returns the block's byte count |
| OutputLog.CdnsEncoder.WriteBreak | src/cdns.h:56 | logs the break; its size is the one-byte CBOR break |
| OutputLog.CdnsEncoder.RotateOutput | src/cdns.h:129 | logs the rotation and switches the output |
| Exporter.WriteEvents | src/cdns.h:98 | the events a block write adds: a header if no block was written to the output yet, then the block |
| Exporter.WriteEventsStep | src/cdns.h:98 | a block write takes the automaton from Empty or Blocks(n) to Blocks(n+1) |
| Exporter.Restarted | src/cdns.h:104-110 | the block after a write has no items and carries the active parameter set and its index |
| Exporter.CdnsExporter.constructor | src/cdns.h:45-48 | the block uses parameter set 0 at index 0, the active index is 0, no block written, nothing logged |
| Exporter.CdnsExporter.WriteFileHeader | src/cdns.h:180-184 | on an output that holds nothing yet, logs one file header with all parameter sets, leaving the output in the header-written state |
| Exporter.CdnsExporter.WriteBlockOf | src/cdns.h:93-98 | writes any block (header first on a fresh output), increments blocks written, returns a non-zero byte count |
| Exporter.CdnsExporter.WriteBlock | src/cdns.h:104-110 | writes the buffered block, then the block is emptied and bound to the active parameter set; blocks written grows by one |
| Exporter.CdnsExporter.BufferQr | src/cdns.h:66-79 | if the record fills the block, exactly one block write, returning its byte count (header on a fresh output plus the block); otherwise returns 0, writes nothing and the block holds the record |
| Exporter.CdnsExporter.RotateOutput | src/cdns.h:120-132 | optional export first, then a break exactly when any block was written, then the switch; blocks written becomes 0; returns 0 exactly when neither export nor break happened |
| Exporter.CdnsExporter.SwitchOutput | src/cdns.h:126-130 | break if blocks were written, then the switch, and the counter reset |
| Exporter.CdnsExporter.GetBlockItemCount | src/cdns.h:138-140 | the item count of the buffered block |
| Exporter.CdnsExporter.AddBlockParameters | src/cdns.h:147-149 | appends a parameter set and returns its index |
| Exporter.CdnsExporter.SetActiveBlockParameters | src/cdns.h:163-169 | false and no change when the index is out of range, else stores it and returns true; the buffered block is untouched |
| Exporter.CdnsExporter.GetActiveBlockParameters | src/cdns.h:175-177 | the stored active index, always within the parameter sets |
| Exporter.CdnsExporter.Destroy | src/cdns.h:54-57 | logs a break exactly when blocks were written; the output is then untouched or a complete file |

## Left out

- CBOR encoding, compression and file or descriptor handling belong to the encoder (`cdns_encoder.h`, `writer.h`, `cbor.h`), which is not part of this model.
  - The encoder is a ghost event log.
  - The byte counts of a header or a block are parameters: positive numbers fixed per value.
  - The break counts one byte.
  - The compression argument of the constructor is not modelled.
- The bodies of `write_block(CdnsBlock&)`, `write_file_header`, `get_item_count`, `clear`, `set_block_parameters` and the two-argument `CdnsBlock` constructor are not in the modelled files.
  - Their models follow their call sites and comments: a header before the first block of an output, then the block, then blocks-written + 1.
  - The item count is query/responses + address event counts + malformed messages. No modelled operation adds address events or malformed messages, so here the count is the number of buffered query/responses.
- `Block.CdnsBlock.AddQuestionResponseRecord` takes a query/response record whose addresses, names and lists are already indices.
  - It does not model resolving a generic record into table entries, updating statistics, or the address-event increment-on-repeat. None of these is in the modelled files.
- `block_table.h` and `hash.h` are not part of this model.
  - Each table is a sequence of entries looked up by the entity's `key()`, with no hashing.
  - `find`, `add_value` and `add` are modelled from how the block uses them.
- `index_t`, `std::size_t` and the `unsigned` statistics counters are left at unbounded width: indices and counts are naturals. The model only ever zeroes the statistics, so no overflow of theirs can arise.
- The flag masks and enumerations of `format_specification.h` are not modelled; they are natural numbers compared for equality.
- Timestamps are not modelled. `BlockPreamble.earliestTime` is carried along but never updated.
- The copy and move operators that are deleted have no behaviour to model.
- The default constructors of the entity structs (all-zero numbers, empty strings and lists) are not modelled. No modelled operation default-constructs an entity: `StringItem tmp; tmp.data = address` in `add_ip_address` and `add_name_rdata` is modelled as `StringItem(address)`, and `IndexListItem tmp; tmp.list = list` in `add_question_list` and `add_rr_list` as `IndexListItem(list)`.
- Rotation failure (`CborOutputException`) is not modelled: the encoder's switch always succeeds.
- Exporter.CdnsExporter.WriteBlockOf: writes an empty block like any other: `write_block(CdnsBlock&)` is declared without a body at `src/cdns.h:98`, and whether it skips a block with no items is not modelled.
- Exporter.CdnsExporter.RotateOutput: with `export_current_block` set, an empty buffered block is written (a header, a zero-item block and a break on a fresh output). The comment at `src/cdns.h:118` says only that closing an empty output returns 0, which the model keeps for a rotation without export.
- Exporter.CdnsExporter.BufferQr: always succeeds. The exception documented at `src/cdns.h:68` for a failed insertion into the block is not modelled, because the insertion itself is not in the modelled files.
- Exporter.CdnsExporter.constructor: requires at least one block-parameter set. The source reads `fp.get_block_parameters(0)` (`src/cdns.h:47`), and `FilePreamble` is not part of this model, so its behaviour on an empty preamble is unknown.
- `python/py_dns.cpp` is not part of this model. It is binding glue with no logic.
  - The enumerator spellings are kept as declared in `src/dns.h`: `DNAM` and `EU148`, not DNAME and EUI48.
  - The record types that only the binding names (SMIMEA, OPENPGPKEY and others) are not modelled.

=== FILE: block.dfy ===
/**
 * One C-DNS block being filled: nine deduplicating block tables, the
 * query/response records, the address event counts and the malformed
 * messages, together with the block-parameter set and preamble the block is
 * written with.
 *
 * Each `Add*` method adds to exactly one table, as `FindOrAdd` specifies,
 * and returns an index whose entry is the argument; `Value` is the whole
 * content of the block, and each method states its new `Value` in terms of
 * the old one, so that "only this table changes" is part of its contract.
 */
module Block {

  import opened BlockEntities
  import opened BlockTables

  /** One block-parameter set of the file preamble; the block reads only its maximum item count. */
  datatype BlockParameters = BlockParameters(maxBlockItems: nat)

  /** The content of a block at one moment, as the encoder writes it. */
  datatype BlockValue = BlockValue(
    parameters: BlockParameters,
    preamble: BlockPreamble,
    statistics: BlockStatistics,
    ipAddress: seq<StringItem>,
    classtype: seq<ClassType>,
    nameRdata: seq<StringItem>,
    qrSig: seq<QueryResponseSignature>,
    qlist: seq<IndexListItem>,
    qrr: seq<Question>,
    rrlist: seq<IndexListItem>,
    rr: seq<RR>,
    malformedMessageData: seq<MalformedMessageData>,
    queryResponses: seq<QueryResponse>,
    addressEventCounts: map<AddressEventCount, u64>,
    malformedMessages: seq<MalformedMessage>)

  const ZeroStatistics := BlockStatistics(0, 0, 0, 0, 0, 0)

  /** The number of items of a block that count towards its maximum. */
  function ItemCount(b: BlockValue): nat
  {
    |b.queryResponses| + |b.addressEventCounts| + |b.malformedMessages|
  }

  /** `b` with every table, record sequence and count emptied and the statistics zeroed. */
  function Cleared(b: BlockValue): (c: BlockValue)
    ensures ItemCount(c) == 0
    ensures c.parameters == b.parameters && c.preamble == b.preamble
  {
    b.(statistics := ZeroStatistics,
       ipAddress := [], classtype := [], nameRdata := [], qrSig := [], qlist := [],
       qrr := [], rrlist := [], rr := [], malformedMessageData := [],
       queryResponses := [], addressEventCounts := map[], malformedMessages := [])
  }

  /** `b` bound to the parameter set `parameters`, found at `index` of the file preamble. */
  function Parameterised(b: BlockValue, parameters: BlockParameters, index: Index): BlockValue
  {
    b.(parameters := parameters, preamble := b.preamble.(blockParametersIndex := index))
  }

  /**
   * `CdnsBlock`. Each block table is a field holding the table's entries in
   * index order; `Valid` says that no table holds two entries with the same
   * key, where the key is the entity's `key()`.
   */
  class CdnsBlock {
    var parameters: BlockParameters
    var preamble: BlockPreamble
    var statistics: BlockStatistics

    var ipAddress: seq<StringItem>
    var classtype: seq<ClassType>
    var nameRdata: seq<StringItem>
    var qrSig: seq<QueryResponseSignature>
    var qlist: seq<IndexListItem>
    var qrr: seq<Question>
    var rrlist: seq<IndexListItem>
    var rr: seq<RR>
    var malformedMessageData: seq<MalformedMessageData>

    var queryResponses: seq<QueryResponse>
    var addressEventCounts: map<AddressEventCount, u64>
    var malformedMessages: seq<MalformedMessage>

    ghost predicate Valid()
      reads this
    {
      DistinctKeys(ipAddress, StringItemKey) && DistinctKeys(classtype, ClassTypeKey) &&
      DistinctKeys(nameRdata, StringItemKey) && DistinctKeys(qrSig, SignatureKey) &&
      DistinctKeys(qlist, IndexListKey) && DistinctKeys(qrr, QuestionKey) &&
      DistinctKeys(rrlist, IndexListKey) && DistinctKeys(rr, RRKey) &&
      DistinctKeys(malformedMessageData, MalformedMessageDataKey)
    }

    function Value(): BlockValue
      reads this
    {
      BlockValue(parameters, preamble, statistics,
                 ipAddress, classtype, nameRdata, qrSig, qlist, qrr, rrlist, rr, malformedMessageData,
                 queryResponses, addressEventCounts, malformedMessages)
    }

    /** `CdnsBlock(bp, index)`: an empty block written with the parameter set `bp`, at `index` of the file preamble. */
    constructor(bp: BlockParameters, index: Index)
      ensures Valid()
      ensures Value() == BlockValue(bp, BlockPreamble(0, index), ZeroStatistics,
                                    [], [], [], [], [], [], [], [], [], [], map[], [])
    {
      parameters := bp;
      preamble := BlockPreamble(0, index);
      statistics := ZeroStatistics;
      ipAddress, classtype, nameRdata, qrSig, qlist := [], [], [], [], [];
      qrr, rrlist, rr, malformedMessageData := [], [], [], [];
      queryResponses := [];
      addressEventCounts := map[];
      malformedMessages := [];
    }

    /** `get_item_count()` */
    function GetItemCount(): (n: nat)
      reads this
      ensures n == ItemCount(Value())
    {
      |queryResponses| + |addressEventCounts| + |malformedMessages|
    }

    /** `add_ip_address(address)`: the index of the address, appending it only when absent. */
    method AddIpAddress(address: ByteString) returns (index: Index)
      requires Valid()
      modifies this
      ensures Valid()
      ensures (ipAddress, index) == FindOrAdd(old(ipAddress), StringItemKey, StringItem(address))
      ensures ipAddress[index] == StringItem(address)
      ensures Value() == old(Value()).(ipAddress := ipAddress)
    {
      var found := Lookup(ipAddress, StringItemKey, address);
      if found.Some? {
        index := found.value;
      } else {
        FindOrAddKeepsDistinct(ipAddress, StringItemKey, StringItem(address));
        ipAddress := ipAddress + [StringItem(address)];
        index := |ipAddress| - 1;
      }
    }

    /** `add_classtype(classtype)` */
    method AddClasstype(c: ClassType) returns (index: Index)
      requires Valid()
      modifies this
      ensures Valid()
      ensures (classtype, index) == FindOrAdd(old(classtype), ClassTypeKey, c)
      ensures classtype[index] == c
      ensures Value() == old(Value()).(classtype := classtype)
    {
      FindOrAddKeepsDistinct(classtype, ClassTypeKey, c);
      var added := FindOrAdd(classtype, ClassTypeKey, c);
      classtype, index := added.0, added.1;
    }

    /** `add_name_rdata(nrd)`: the index of the name or RDATA, appending it only when absent. */
    method AddNameRdata(nrd: ByteString) returns (index: Index)
      requires Valid()
      modifies this
      ensures Valid()
      ensures (nameRdata, index) == FindOrAdd(old(nameRdata), StringItemKey, StringItem(nrd))
      ensures nameRdata[index] == StringItem(nrd)
      ensures Value() == old(Value()).(nameRdata := nameRdata)
    {
      var found := Lookup(nameRdata, StringItemKey, nrd);
      if found.Some? {
        index := found.value;
      } else {
        FindOrAddKeepsDistinct(nameRdata, StringItemKey, StringItem(nrd));
        nameRdata := nameRdata + [StringItem(nrd)];
        index := |nameRdata| - 1;
      }
    }

    /** `add_qr_signature(qr_sig)` */
    method AddQrSignature(sig: QueryResponseSignature) returns (index: Index)
      requires Valid()
      modifies this
      ensures Valid()
      ensures (qrSig, index) == FindOrAdd(old(qrSig), SignatureKey, sig)
      ensures qrSig[index] == sig
      ensures Value() == old(Value()).(qrSig := qrSig)
    {
      FindOrAddKeepsDistinct(qrSig, SignatureKey, sig);
      var added := FindOrAdd(qrSig, SignatureKey, sig);
      qrSig, index := added.0, added.1;
    }

    /** `add_question_list(qlist)`: the index of the whole list, appending it only when absent. */
    method AddQuestionList(list: seq<Index>) returns (index: Index)
      requires Valid()
      modifies this
      ensures Valid()
      ensures (qlist, index) == FindOrAdd(old(qlist), IndexListKey, IndexListItem(list))
      ensures qlist[index] == IndexListItem(list)
      ensures Value() == old(Value()).(qlist := qlist)
    {
      var found := Lookup(qlist, IndexListKey, list);
      if found.Some? {
        index := found.value;
      } else {
        FindOrAddKeepsDistinct(qlist, IndexListKey, IndexListItem(list));
        qlist := qlist + [IndexListItem(list)];
        index := |qlist| - 1;
      }
    }

    /** `add_question(qrr)` */
    method AddQuestion(q: Question) returns (index: Index)
      requires Valid()
      modifies this
      ensures Valid()
      ensures (qrr, index) == FindOrAdd(old(qrr), QuestionKey, q)
      ensures qrr[index] == q
      ensures Value() == old(Value()).(qrr := qrr)
    {
      FindOrAddKeepsDistinct(qrr, QuestionKey, q);
      var added := FindOrAdd(qrr, QuestionKey, q);
      qrr, index := added.0, added.1;
    }

    /** `add_rr_list(rrlist)`: the index of the whole list, appending it only when absent. */
    method AddRrList(list: seq<Index>) returns (index: Index)
      requires Valid()
      modifies this
      ensures Valid()
      ensures (rrlist, index) == FindOrAdd(old(rrlist), IndexListKey, IndexListItem(list))
      ensures rrlist[index] == IndexListItem(list)
      ensures Value() == old(Value()).(rrlist := rrlist)
    {
      var found := Lookup(rrlist, IndexListKey, list);
      if found.Some? {
        index := found.value;
      } else {
        FindOrAddKeepsDistinct(rrlist, IndexListKey, IndexListItem(list));
        rrlist := rrlist + [IndexListItem(list)];
        index := |rrlist| - 1;
      }
    }

    /** `add_rr(rr)` */
    method AddRr(r: RR) returns (index: Index)
      requires Valid()
      modifies this
      ensures Valid()
      ensures (rr, index) == FindOrAdd(old(rr), RRKey, r)
      ensures rr[index] == r
      ensures Value() == old(Value()).(rr := rr)
    {
      FindOrAddKeepsDistinct(rr, RRKey, r);
      var added := FindOrAdd(rr, RRKey, r);
      rr, index := added.0, added.1;
    }

    /** `add_malformed_message_data(mmd)` */
    method AddMalformedMessageData(mmd: MalformedMessageData) returns (index: Index)
      requires Valid()
      modifies this
      ensures Valid()
      ensures (malformedMessageData, index) == FindOrAdd(old(malformedMessageData), MalformedMessageDataKey, mmd)
      ensures malformedMessageData[index] == mmd
      ensures Value() == old(Value()).(malformedMessageData := malformedMessageData)
    {
      FindOrAddKeepsDistinct(malformedMessageData, MalformedMessageDataKey, mmd);
      var added := FindOrAdd(malformedMessageData, MalformedMessageDataKey, mmd);
      malformedMessageData, index := added.0, added.1;
    }

    /**
     * `add_question_response_record(record)`, for a record whose addresses,
     * names and lists are already resolved to indices: append it, and report
     * whether the block has reached the maximum item count of its parameters.
     */
    method AddQuestionResponseRecord(record: QueryResponse) returns (full: bool)
      requires Valid()
      modifies this
      ensures Valid()
      ensures Value() == old(Value()).(queryResponses := old(queryResponses) + [record])
      ensures ItemCount(Value()) == ItemCount(old(Value())) + 1
      ensures full <==> ItemCount(Value()) >= parameters.maxBlockItems
    {
      queryResponses := queryResponses + [record];
      full := |queryResponses| + |addressEventCounts| + |malformedMessages| >= parameters.maxBlockItems;
    }

    /** `clear()`: empty every table, record sequence and count, and zero the statistics. */
    method Clear()
      modifies this
      ensures Valid()
      ensures Value() == Cleared(old(Value()))
    {
      ClearNameTables();
      ClearRecordTables();
      ClearMessageTables();
      ClearRecords();
    }

    /** Empties the address, class/type and name/RDATA tables. */
    method ClearNameTables()
      modifies this
      ensures DistinctKeys(ipAddress, StringItemKey) && DistinctKeys(classtype, ClassTypeKey)
      ensures DistinctKeys(nameRdata, StringItemKey)
      ensures Value() == old(Value()).(ipAddress := [], classtype := [], nameRdata := [])
    {
      ipAddress, classtype, nameRdata := [], [], [];
      EmptyHasDistinctKeys(StringItemKey);
      EmptyHasDistinctKeys(ClassTypeKey);
    }

    /** Empties the question-list, question, RR-list and RR tables. */
    method ClearRecordTables()
      modifies this
      ensures DistinctKeys(qlist, IndexListKey) && DistinctKeys(qrr, QuestionKey)
      ensures DistinctKeys(rrlist, IndexListKey) && DistinctKeys(rr, RRKey)
      ensures Value() == old(Value()).(qlist := [], qrr := [], rrlist := [], rr := [])
    {
      qlist, qrr, rrlist, rr := [], [], [], [];
      EmptyHasDistinctKeys(IndexListKey);
      EmptyHasDistinctKeys(QuestionKey);
      EmptyHasDistinctKeys(RRKey);
    }

    /** Empties the signature and malformed message data tables. */
    method ClearMessageTables()
      modifies this
      ensures DistinctKeys(qrSig, SignatureKey) && DistinctKeys(malformedMessageData, MalformedMessageDataKey)
      ensures Value() == old(Value()).(qrSig := [], malformedMessageData := [])
    {
      qrSig, malformedMessageData := [], [];
      EmptyHasDistinctKeys(SignatureKey);
      EmptyHasDistinctKeys(MalformedMessageDataKey);
    }

    /** Empties the record sequences and the address event counts, and zeroes the statistics. */
    method ClearRecords()
      requires Valid()
      modifies this
      ensures Valid()
      ensures Value() == old(Value()).(queryResponses := [], addressEventCounts := map[], malformedMessages := [],
                                       statistics := ZeroStatistics)
    {
      queryResponses := [];
      addressEventCounts := map[];
      malformedMessages := [];
      statistics := ZeroStatistics;
    }

    /** `set_block_parameters(bp, index)`: write the block with parameter set `bp`, found at `index`. */
    method SetBlockParameters(bp: BlockParameters, index: Index)
      requires Valid()
      modifies this
      ensures Valid()
      ensures Value() == Parameterised(old(Value()), bp, index)
    {
      parameters := bp;
      preamble := preamble.(blockParametersIndex := index);
    }
  }

  /**
   * Adding an index list and then the same list with two different entries
   * swapped gives two different indices: lists are deduplicated in order.
   */
  lemma {:induction false} ListOrderMatters(items: seq<IndexListItem>, l: seq<Index>, i: nat, j: nat)
    requires DistinctKeys(items, IndexListKey)
    requires i < j < |l| && l[i] != l[j]
    ensures var (t1, a) := FindOrAdd(items, IndexListKey, IndexListItem(l));
            var swapped := IndexListItem(l[i := l[j]][j := l[i]]);
            a != FindOrAdd(t1, IndexListKey, swapped).1
  {
    var swapped := IndexListItem(l[i := l[j]][j := l[i]]);
    IndexListsAreOrdered(l, i, j);
    FindOrAddSeparates(items, IndexListKey, IndexListItem(l), swapped);
  }

  /**
   * Two signatures that differ in any one of their 17 fields get different
   * indices in the signature table; equal ones share an index.
   */
  lemma {:induction false} SignaturesSeparate(items: seq<QueryResponseSignature>, a: QueryResponseSignature, b: QueryResponseSignature)
    requires DistinctKeys(items, SignatureKey)
    ensures var (t1, ia) := FindOrAdd(items, SignatureKey, a);
            ia == FindOrAdd(t1, SignatureKey, b).1 <==> a.Eq(b)
  {
    FindOrAddSeparates(items, SignatureKey, a, b);
  }

  /** After `clear()`, the first value added to any of the nine tables of the block gets index 0. */
  lemma FirstAfterClearIsZero(b: BlockValue, address: ByteString, c: ClassType,
                              sig: QueryResponseSignature, list: seq<Index>, q: Question,
                              r: RR, mmd: MalformedMessageData)
    ensures var e := Cleared(b);
            FindOrAdd(e.ipAddress, StringItemKey, StringItem(address)).1 == 0 &&
            FindOrAdd(e.classtype, ClassTypeKey, c).1 == 0 &&
            FindOrAdd(e.nameRdata, StringItemKey, StringItem(address)).1 == 0 &&
            FindOrAdd(e.qrSig, SignatureKey, sig).1 == 0 &&
            FindOrAdd(e.qlist, IndexListKey, IndexListItem(list)).1 == 0 &&
            FindOrAdd(e.qrr, QuestionKey, q).1 == 0 &&
            FindOrAdd(e.rrlist, IndexListKey, IndexListItem(list)).1 == 0 &&
            FindOrAdd(e.rr, RRKey, r).1 == 0 &&
            FindOrAdd(e.malformedMessageData, MalformedMessageDataKey, mmd).1 == 0
  {
  }

  /**
   * On a block: once `clear()` has run, the first address and the first
   * class/type added are at index 0 of their tables, whatever the block held.
   */
  method AddAfterClear(b: CdnsBlock, address: ByteString, c: ClassType) returns (addressIndex: Index, classtypeIndex: Index)
    requires b.Valid()
    modifies b
    ensures b.Valid()
    ensures addressIndex == 0 && classtypeIndex == 0
    ensures b.ipAddress == [StringItem(address)] && b.classtype == [c]
  {
    b.Clear();
    addressIndex := b.AddIpAddress(address);
    classtypeIndex := b.AddClasstype(c);
  }
}

=== FILE: block_table.dfy ===
/**
 * A block table: the entries of one table of a C-DNS block, in insertion
 * order, with no two entries under the same key. An entry is referred to by
 * its position (its index), which the table assigns on first insertion and
 * never changes.
 *
 * `FindOrAdd` is the specification of adding a value: return the index of the
 * entry with the value's key, or append the value and return its index. The
 * lemmas state what a table promises its users: it stays free of duplicate
 * keys, adding is idempotent, values with different keys get different
 * indices, and distinct values added to an empty table get 0, 1, 2, ...
 * A block keeps each of its tables as a sequence of entries and updates it
 * in place with `Lookup` (the table's `find`), an append (`add_value`) or
 * `FindOrAdd` (`add`).
 */
module BlockTables {

  import opened Wrappers

  /** No two entries of `items` have the same key. */
  ghost predicate DistinctKeys<V, K>(items: seq<V>, key: V -> K)
  {
    forall i, j :: 0 <= i < j < |items| ==> key(items[i]) != key(items[j])
  }

  /** An empty table, as after `clear()`, has no duplicate keys. */
  lemma EmptyHasDistinctKeys<V, K>(key: V -> K)
    ensures DistinctKeys([], key)
  {
  }

  /** Whether some entry of `items` has key `k`. */
  ghost predicate HasKey<V, K>(items: seq<V>, key: V -> K, k: K)
  {
    exists i :: 0 <= i < |items| && key(items[i]) == k
  }

  /** The first index at or after `from` whose entry has key `k`, if any. */
  function LookupFrom<V, K(==)>(items: seq<V>, key: V -> K, k: K, from: nat): (r: Option<nat>)
    requires from <= |items|
    ensures r.Some? ==> from <= r.value < |items| && key(items[r.value]) == k
    ensures r.Some? ==> forall i :: from <= i < r.value ==> key(items[i]) != k
    ensures r.None? ==> forall i :: from <= i < |items| ==> key(items[i]) != k
    decreases |items| - from
  {
    if from == |items| then None
    else if key(items[from]) == k then Some(from)
    else LookupFrom(items, key, k, from + 1)
  }

  /** The index of the entry with key `k`, or None when there is none. */
  function Lookup<V, K(==)>(items: seq<V>, key: V -> K, k: K): (r: Option<nat>)
    ensures r.Some? ==> r.value < |items| && key(items[r.value]) == k
    ensures r.None? <==> !HasKey(items, key, k)
  {
    LookupFrom(items, key, k, 0)
  }

  /**
   * Adding `v`: the new entries and the index of the entry with `v`'s key.
   * The table grows, by `v` alone, exactly when no entry had that key.
   */
  function FindOrAdd<V, K(==)>(items: seq<V>, key: V -> K, v: V): (r: (seq<V>, nat))
    ensures r.1 < |r.0| && key(r.0[r.1]) == key(v)
    ensures HasKey(items, key, key(v)) ==> r.0 == items
    ensures !HasKey(items, key, key(v)) ==> r.0 == items + [v] && r.1 == |items|
  {
    match Lookup(items, key, key(v))
    case Some(i) => (items, i)
    case None => (items + [v], |items|)
  }

  /** Adding keeps the keys of a table distinct. */
  lemma {:induction false} FindOrAddKeepsDistinct<V, K>(items: seq<V>, key: V -> K, v: V)
    requires DistinctKeys(items, key)
    ensures DistinctKeys(FindOrAdd(items, key, v).0, key)
  {
    var r := FindOrAdd(items, key, v);
    if !HasKey(items, key, key(v)) {
      forall i, j | 0 <= i < j < |r.0|
        ensures key(r.0[i]) != key(r.0[j])
      {
        if j == |items| {
          assert r.0[j] == v && r.0[i] == items[i];
        } else {
          assert r.0[i] == items[i] && r.0[j] == items[j];
        }
      }
    }
  }

  /** Adding never moves or replaces an existing entry. */
  lemma FindOrAddExtends<V, K>(items: seq<V>, key: V -> K, v: V)
    ensures items <= FindOrAdd(items, key, v).0
    ensures |FindOrAdd(items, key, v).0| <= |items| + 1
  {
  }

  /**
   * Idempotence: adding a value with the same key again returns the same
   * index and leaves the table as it was.
   */
  lemma {:induction false} FindOrAddIdempotent<V, K>(items: seq<V>, key: V -> K, v: V, w: V)
    requires DistinctKeys(items, key)
    requires key(w) == key(v)
    ensures var (t1, i1) := FindOrAdd(items, key, v);
            FindOrAdd(t1, key, w) == (t1, i1)
  {
    var (t1, i1) := FindOrAdd(items, key, v);
    FindOrAddKeepsDistinct(items, key, v);
    assert HasKey(t1, key, key(w)) by {
      assert key(t1[i1]) == key(w);
    }
    var i2 := FindOrAdd(t1, key, w).1;
    assert key(t1[i2]) == key(t1[i1]);
  }

  /**
   * Values added one after the other get the same index exactly when their
   * keys are equal, and the first value's entry is still there after the
   * second is added.
   */
  lemma {:induction false} FindOrAddSeparates<V, K>(items: seq<V>, key: V -> K, a: V, b: V)
    requires DistinctKeys(items, key)
    ensures var (t1, ia) := FindOrAdd(items, key, a);
            var (t2, ib) := FindOrAdd(t1, key, b);
            ia < |t2| && t2[ia] == t1[ia] && (ia == ib <==> key(a) == key(b))
  {
    var (t1, ia) := FindOrAdd(items, key, a);
    var (t2, ib) := FindOrAdd(t1, key, b);
    FindOrAddExtends(t1, key, b);
    if key(a) == key(b) {
      FindOrAddIdempotent(items, key, a, b);
    }
  }

  /** The indices that adding each of `vs` in turn to `items` returns, and the resulting table. */
  function AddAll<V, K(==)>(items: seq<V>, key: V -> K, vs: seq<V>): (r: (seq<V>, seq<nat>))
    ensures |r.1| == |vs|
    decreases |vs|
  {
    if vs == [] then (items, [])
    else
      var (t, i) := FindOrAdd(items, key, vs[0]);
      var (t', rest) := AddAll(t, key, vs[1..]);
      (t', [i] + rest)
  }

  /**
   * Insertion-order indexing: distinct values added one by one to `items`,
   * none of whose keys is present yet, are appended in order, and the n-th of
   * them gets index |items| + n. From an empty table they get 0, 1, 2, ...
   */
  lemma {:induction false} AddAllFresh<V, K>(items: seq<V>, key: V -> K, vs: seq<V>)
    requires DistinctKeys(items + vs, key)
    ensures AddAll(items, key, vs).0 == items + vs
    ensures forall n :: 0 <= n < |vs| ==> AddAll(items, key, vs).1[n] == |items| + n
    decreases |vs|
  {
    if vs != [] {
      assert !HasKey(items, key, key(vs[0])) by {
        forall i | 0 <= i < |items|
          ensures key(items[i]) != key(vs[0])
        {
          assert (items + vs)[i] == items[i] && (items + vs)[|items|] == vs[0];
        }
      }
      var t := items + [vs[0]];
      assert t + vs[1..] == items + vs;
      AddAllFresh(t, key, vs[1..]);
    }
  }

  /** Insertion-order indexing from an empty table. */
  lemma InsertionOrder<V, K>(key: V -> K, vs: seq<V>)
    requires DistinctKeys(vs, key)
    ensures AddAll([], key, vs).0 == vs
    ensures forall n :: 0 <= n < |vs| ==> AddAll([], key, vs).1[n] == n
  {
    assert [] + vs == vs;
    AddAllFresh([], key, vs);
  }
}

=== FILE: dns.dfy ===
/**
 * The DNS code constants of the exporter: the OPCODE values (section 4.1.1 of
 * RFC 1035, plus NOTIFY, UPDATE and DSO) and the RR TYPE values (section 3.2.2
 * of RFC 1035 and the IANA RR TYPE registry), declared as the C++ enumerations
 * `OpCodes` (underlying type `uint8_t`) and `RrTypes` (underlying type
 * `uint16_t`).
 *
 * Most values are not written in the declarations: C++ gives an enumerator
 * without an initialiser the value of the previous enumerator plus one. The
 * model keeps each declaration as written (which enumerators carry an
 * initialiser, and which), computes every enumerator by that rule, and proves
 * the resulting codes, gaps and aliases.
 */
module Dns {

  /** How one enumerator of a C++ enumeration is initialised. */
  datatype Initializer =
    | Implicit               // no initialiser: previous value + 1, or 0 for the first
    | Explicit(value: int)   // `= value`
    | SameAs(position: nat)  // `= OTHER`, where OTHER is declared at `position`

  /** Every alias among the first `count` enumerators names an earlier one (else C++ rejects it). */
  ghost predicate WellFormed(decl: nat -> Initializer, count: nat)
  {
    forall i :: 0 <= i < count && decl(i).SameAs? ==> decl(i).position < i
  }

  /** The value C++ gives to the enumerator declared at position `i` of `decl`. */
  function ValueOf(decl: nat -> Initializer, i: nat): int
    requires WellFormed(decl, i + 1)
    decreases i
  {
    match decl(i)
    case Implicit => if i == 0 then 0 else ValueOf(decl, i - 1) + 1
    case Explicit(v) => v
    case SameAs(j) => ValueOf(decl, j)
  }

  /**
   * A run of enumerators without initialiser after an explicit one counts up
   * from the explicit value.
   */
  lemma {:induction false} RunCountsUp(decl: nat -> Initializer, first: nat, last: nat)
    requires first <= last && WellFormed(decl, last + 1)
    requires decl(first).Explicit?
    requires forall i :: first < i <= last ==> decl(i) == Implicit
    ensures ValueOf(decl, last) == decl(first).value + (last - first)
    decreases last
  {
    if last > first {
      RunCountsUp(decl, first, last - 1);
    }
  }

  // ---------------------------------------------------------------------------
  // enum class OpCodes : uint8_t

  newtype OpCodes = v: int | 0 <= v < 0x100

  const OpCodesCount: nat := 6

  /** `OP_QUERY = 0, OP_IQUERY, OP_STATUS, OP_NOTIFY = 4, OP_UPDATE, OP_DSO` */
  function OpCodesDeclaration(i: nat): Initializer
  {
    if i == 0 then Explicit(0)
    else if i == 3 then Explicit(4)
    else Implicit
  }

  /** The enumerator declared at position `i`: it fits the 4-bit OPCODE field of the header, and 3 is skipped. */
  function OpCodesEnumerator(i: nat): (v: OpCodes)
    requires i < OpCodesCount
    ensures v == if i < 3 then i as OpCodes else (i + 1) as OpCodes
    ensures v <= 15 && v != 3
  {
    assert WellFormed(OpCodesDeclaration, i + 1);
    if i < 3 then
      RunCountsUp(OpCodesDeclaration, 0, i);
      ValueOf(OpCodesDeclaration, i) as OpCodes
    else
      RunCountsUp(OpCodesDeclaration, 3, i);
      ValueOf(OpCodesDeclaration, i) as OpCodes
  }

  const OP_QUERY: OpCodes := OpCodesEnumerator(0)
  const OP_IQUERY: OpCodes := OpCodesEnumerator(1)
  const OP_STATUS: OpCodes := OpCodesEnumerator(2)
  const OP_NOTIFY: OpCodes := OpCodesEnumerator(3)
  const OP_UPDATE: OpCodes := OpCodesEnumerator(4)
  const OP_DSO: OpCodes := OpCodesEnumerator(5)

  /** QUERY=0, IQUERY=1, STATUS=2, NOTIFY=4, UPDATE=5, DSO=6. */
  lemma OpCodesValues()
    ensures OP_QUERY == 0 && OP_IQUERY == 1 && OP_STATUS == 2
    ensures OP_NOTIFY == 4 && OP_UPDATE == 5 && OP_DSO == 6
  {
  }

  /** No two opcodes share a value. */
  lemma OpCodesDistinct(i: nat, j: nat)
    requires i < OpCodesCount && j < OpCodesCount
    ensures OpCodesEnumerator(i) == OpCodesEnumerator(j) <==> i == j
  {
  }

  // ---------------------------------------------------------------------------
  // enum class RrTypes : uint16_t

  newtype RrTypes = v: int | 0 <= v < 0x1_0000

  /** `RrTypes` declares 81 enumerators, `A` at position 0 to `CERT` at position 80. */
  const RrTypesCount: nat := 81

  /**
   * The initialisers of `RrTypes`: `A = 1`, `HIP = 55`, `SPF = 99`,
   * `TKEY = 249`, `TA = 32768`, `NSEC3PARAMS = NSEC3PARAM` and
   * `CERT = CERTIFICATE`; every other enumerator has none.
   */
  function RrTypesDeclaration(i: nat): Initializer
  {
    if i == 0 then Explicit(1)            // A
    else if i == 52 then Explicit(55)     // HIP
    else if i == 57 then Explicit(99)     // SPF
    else if i == 68 then Explicit(249)    // TKEY
    else if i == 77 then Explicit(32768)  // TA
    else if i == 79 then SameAs(50)       // NSEC3PARAMS = NSEC3PARAM
    else if i == 80 then SameAs(36)       // CERT = CERTIFICATE
    else Implicit
  }

  /** Each alias of `RrTypes` names an earlier enumerator. */
  lemma RrTypesWellFormed()
    ensures WellFormed(RrTypesDeclaration, RrTypesCount)
  {
  }

  /** The value of every position of `RrTypes`, run by run. */
  lemma RrTypesRuns(i: nat)
    requires i < RrTypesCount
    ensures WellFormed(RrTypesDeclaration, i + 1)
    ensures i <= 51 ==> ValueOf(RrTypesDeclaration, i) == 1 + i                  // A .. TLSA
    ensures 52 <= i <= 56 ==> ValueOf(RrTypesDeclaration, i) == 55 + (i - 52)    // HIP .. CDS
    ensures 57 <= i <= 67 ==> ValueOf(RrTypesDeclaration, i) == 99 + (i - 57)    // SPF .. EUI64
    ensures 68 <= i <= 76 ==> ValueOf(RrTypesDeclaration, i) == 249 + (i - 68)   // TKEY .. CAA
    ensures 77 <= i <= 78 ==> ValueOf(RrTypesDeclaration, i) == 32768 + (i - 77) // TA, DLV
    ensures i == 79 ==> ValueOf(RrTypesDeclaration, i) == 51                     // NSEC3PARAMS
    ensures i == 80 ==> ValueOf(RrTypesDeclaration, i) == 37                     // CERT
  {
    RrTypesWellFormed();
    if i <= 51 {
      RunCountsUp(RrTypesDeclaration, 0, i);
    } else if i <= 56 {
      RunCountsUp(RrTypesDeclaration, 52, i);
    } else if i <= 67 {
      RunCountsUp(RrTypesDeclaration, 57, i);
    } else if i <= 76 {
      RunCountsUp(RrTypesDeclaration, 68, i);
    } else if i <= 78 {
      RunCountsUp(RrTypesDeclaration, 77, i);
    } else if i == 79 {
      RunCountsUp(RrTypesDeclaration, 0, 50);
    } else {
      RunCountsUp(RrTypesDeclaration, 0, 36);
    }
  }

  /**
   * The enumerator declared at position `i`. Its value fits `uint16_t`, is
   * never 0, and lies in one of the declared runs, so 53, 54, 60..98,
   * 110..248 and 258..32767 are never produced.
   */
  function RrTypesEnumerator(i: nat): (v: RrTypes)
    requires i < RrTypesCount
    ensures (1 <= v <= 52) || (55 <= v <= 59) || (99 <= v <= 109) || (249 <= v <= 257)
         || v == 32768 || v == 32769
  {
    RrTypesRuns(i);
    ValueOf(RrTypesDeclaration, i) as RrTypes
  }

  const A: RrTypes := RrTypesEnumerator(0)
  const NS: RrTypes := RrTypesEnumerator(1)
  const MD: RrTypes := RrTypesEnumerator(2)
  const MF: RrTypes := RrTypesEnumerator(3)
  const CNAME: RrTypes := RrTypesEnumerator(4)
  const SOA: RrTypes := RrTypesEnumerator(5)
  const MB: RrTypes := RrTypesEnumerator(6)
  const MG: RrTypes := RrTypesEnumerator(7)
  const MR: RrTypes := RrTypesEnumerator(8)
  const NULL_R: RrTypes := RrTypesEnumerator(9)
  const WKS: RrTypes := RrTypesEnumerator(10)
  const PTR: RrTypes := RrTypesEnumerator(11)
  const HINFO: RrTypes := RrTypesEnumerator(12)
  const MINFO: RrTypes := RrTypesEnumerator(13)
  const MX: RrTypes := RrTypesEnumerator(14)
  const TXT: RrTypes := RrTypesEnumerator(15)
  const RP: RrTypes := RrTypesEnumerator(16)
  const AFSDB: RrTypes := RrTypesEnumerator(17)
  const X25: RrTypes := RrTypesEnumerator(18)
  const ISDN: RrTypes := RrTypesEnumerator(19)
  const RT: RrTypes := RrTypesEnumerator(20)
  const NSAP: RrTypes := RrTypesEnumerator(21)
  const NSAP_PTR: RrTypes := RrTypesEnumerator(22)
  const SIG: RrTypes := RrTypesEnumerator(23)
  const KEY: RrTypes := RrTypesEnumerator(24)
  const PX: RrTypes := RrTypesEnumerator(25)
  const GPOS: RrTypes := RrTypesEnumerator(26)
  const AAAA: RrTypes := RrTypesEnumerator(27)
  const LOC: RrTypes := RrTypesEnumerator(28)
  const NXT: RrTypes := RrTypesEnumerator(29)
  const EID: RrTypes := RrTypesEnumerator(30)
  const NIMLOC: RrTypes := RrTypesEnumerator(31)
  const SRV: RrTypes := RrTypesEnumerator(32)
  const ATMA: RrTypes := RrTypesEnumerator(33)
  const NAPTR: RrTypes := RrTypesEnumerator(34)
  const KX: RrTypes := RrTypesEnumerator(35)
  const CERTIFICATE: RrTypes := RrTypesEnumerator(36)
  const A6: RrTypes := RrTypesEnumerator(37)
  const DNAM: RrTypes := RrTypesEnumerator(38)
  const SINK: RrTypes := RrTypesEnumerator(39)
  const OPT: RrTypes := RrTypesEnumerator(40)
  const APL: RrTypes := RrTypesEnumerator(41)
  const DS: RrTypes := RrTypesEnumerator(42)
  const SSHFP: RrTypes := RrTypesEnumerator(43)
  const IPSECKEY: RrTypes := RrTypesEnumerator(44)
  const RRSIG: RrTypes := RrTypesEnumerator(45)
  const NSEC: RrTypes := RrTypesEnumerator(46)
  const DNSKEY: RrTypes := RrTypesEnumerator(47)
  const DHCID: RrTypes := RrTypesEnumerator(48)
  const NSEC3: RrTypes := RrTypesEnumerator(49)
  const NSEC3PARAM: RrTypes := RrTypesEnumerator(50)
  const TLSA: RrTypes := RrTypesEnumerator(51)
  const HIP: RrTypes := RrTypesEnumerator(52)
  const NINFO: RrTypes := RrTypesEnumerator(53)
  const RKEY: RrTypes := RrTypesEnumerator(54)
  const TALINK: RrTypes := RrTypesEnumerator(55)
  const CDS: RrTypes := RrTypesEnumerator(56)
  const SPF: RrTypes := RrTypesEnumerator(57)
  const UINFO: RrTypes := RrTypesEnumerator(58)
  const UID: RrTypes := RrTypesEnumerator(59)
  const GID: RrTypes := RrTypesEnumerator(60)
  const UNSPEC: RrTypes := RrTypesEnumerator(61)
  const NID: RrTypes := RrTypesEnumerator(62)
  const L32: RrTypes := RrTypesEnumerator(63)
  const L64: RrTypes := RrTypesEnumerator(64)
  const LP: RrTypes := RrTypesEnumerator(65)
  const EU148: RrTypes := RrTypesEnumerator(66)
  const EUI64: RrTypes := RrTypesEnumerator(67)
  const TKEY: RrTypes := RrTypesEnumerator(68)
  const TSIG: RrTypes := RrTypesEnumerator(69)
  const IXFR: RrTypes := RrTypesEnumerator(70)
  const AXFR: RrTypes := RrTypesEnumerator(71)
  const MAILB: RrTypes := RrTypesEnumerator(72)
  const MAILA: RrTypes := RrTypesEnumerator(73)
  const TYPE_ANY: RrTypes := RrTypesEnumerator(74)
  const URI: RrTypes := RrTypesEnumerator(75)
  const CAA: RrTypes := RrTypesEnumerator(76)
  const TA: RrTypes := RrTypesEnumerator(77)
  const DLV: RrTypes := RrTypesEnumerator(78)
  const NSEC3PARAMS: RrTypes := RrTypesEnumerator(79)
  const CERT: RrTypes := RrTypesEnumerator(80)

  /** The codes of the IANA registry, at every boundary of a run and beyond. */
  lemma RrTypesValues()
    ensures A == 1 && CNAME == 5 && MX == 15 && AAAA == 28 && SRV == 33 && CERTIFICATE == 37
    ensures OPT == 41 && DS == 43 && RRSIG == 46 && DNSKEY == 48 && NSEC3PARAM == 51 && TLSA == 52
    ensures HIP == 55 && CDS == 59 && SPF == 99 && EUI64 == 109
    ensures TKEY == 249 && TYPE_ANY == 255 && CAA == 257 && TA == 32768 && DLV == 32769
  {
    RrTypesRuns(0); RrTypesRuns(4); RrTypesRuns(14); RrTypesRuns(27); RrTypesRuns(32);
    RrTypesRuns(36); RrTypesRuns(40); RrTypesRuns(42); RrTypesRuns(45); RrTypesRuns(47);
    RrTypesRuns(50); RrTypesRuns(51); RrTypesRuns(52); RrTypesRuns(56); RrTypesRuns(57);
    RrTypesRuns(67); RrTypesRuns(68); RrTypesRuns(74); RrTypesRuns(76); RrTypesRuns(77);
    RrTypesRuns(78);
  }

  /** Each alias has the value of its target: NSEC3PARAMS == NSEC3PARAM == 51, CERT == CERTIFICATE == 37. */
  lemma AliasesEqualTargets()
    ensures NSEC3PARAMS == NSEC3PARAM == 51
    ensures CERT == CERTIFICATE == 37
  {
    RrTypesRuns(79); RrTypesRuns(50); RrTypesRuns(80); RrTypesRuns(36);
  }

  /**
   * Apart from the two aliases, the enumerators of `RrTypes` are pairwise
   * distinct: two positions share a value exactly when one declares an alias
   * of the other.
   */
  lemma {:induction false} RrTypesDistinct(i: nat, j: nat)
    requires i < j < RrTypesCount
    ensures RrTypesEnumerator(i) == RrTypesEnumerator(j) <==> (i == 36 && j == 80) || (i == 50 && j == 79)
  {
    RrTypesRuns(i);
    RrTypesRuns(j);
  }
}

=== FILE: entities.dfy ===
/**
 * The entities of one C-DNS block (the block tables and record sequences of
 * section 7.3.3 of RFC 8618), as the exporter declares them: the fixed-width
 * integers keep their C++ widths, an index into a block table is a natural
 * number, and a byte string is a sequence of octets.
 *
 * Every entity that a block table deduplicates defines its identity by an
 * `operator==` that compares field by field, an `operator!=`, and a `key()`
 * under which the table looks it up. They are `Eq`, `Ne` and `Key` here; each
 * `Eq` and `Ne` is proved to be exactly (in)equality of the whole entity, so
 * no field is left out of the comparison, and `KeysIdentify` proves that two
 * entities have the same key exactly when they are equal.
 */
module BlockEntities {

  newtype u8 = x: int | 0 <= x < 0x100
  newtype u16 = x: int | 0 <= x < 0x1_0000
  newtype u32 = x: int | 0 <= x < 0x1_0000_0000
  newtype u64 = x: int | 0 <= x < 0x1_0000_0000_0000_0000
  newtype i64 = x: int | -0x8000_0000_0000_0000 <= x < 0x8000_0000_0000_0000

  /** `index_t`: a position in a block table. */
  type Index = nat

  /** `std::string` holding raw bytes (an address, a name, RDATA, a payload). */
  type ByteString = seq<u8>

  /**
   * The flag masks and enumerations of the C-DNS format (transport flags,
   * QR type, signature flags, DNS flags, response processing flags, address
   * event type) are compared only for equality here; their values are the
   * natural numbers of their bit patterns.
   */
  type TransportFlags = nat
  type QueryResponseType = nat
  type SignatureFlags = nat
  type DnsFlags = nat
  type ProcessingFlags = nat
  type AddressEventType = nat

  /** Block table's ClassType: an RR TYPE and an RR CLASS. */
  datatype ClassType = ClassType(rrType: u16, rrClass: u16)
  {
    function Eq(rhs: ClassType): (equal: bool)
      ensures equal <==> this == rhs
    {
      rrType == rhs.rrType && rrClass == rhs.rrClass
    }

    function Ne(rhs: ClassType): (differ: bool)
      ensures differ <==> this != rhs
    {
      !Eq(rhs)
    }

    function Key(): ClassType
    {
      this
    }
  }

  /** Block table's Query Response Signature: the 17 fields a query and its response share. */
  datatype QueryResponseSignature = QueryResponseSignature(
    serverAddressIndex: Index,
    serverPort: u16,
    qrTransportFlags: TransportFlags,
    qrType: QueryResponseType,
    qrSigFlags: SignatureFlags,
    queryOpcode: u8,
    qrDnsFlags: DnsFlags,
    queryRcode: u16,
    queryClasstypeIndex: Index,
    queryQdcount: u16,
    queryAncount: u32,
    queryNscount: u16,
    queryArcount: u16,
    queryEdnsVersion: u8,
    queryUdpSize: u16,
    queryOptRdataIndex: Index,
    responseRcode: u16)
  {
    function Eq(rhs: QueryResponseSignature): (equal: bool)
      ensures equal <==> this == rhs
    {
      serverAddressIndex == rhs.serverAddressIndex &&
      serverPort == rhs.serverPort &&
      qrTransportFlags == rhs.qrTransportFlags &&
      qrType == rhs.qrType && qrSigFlags == rhs.qrSigFlags &&
      queryOpcode == rhs.queryOpcode && qrDnsFlags == rhs.qrDnsFlags &&
      queryRcode == rhs.queryRcode &&
      queryClasstypeIndex == rhs.queryClasstypeIndex &&
      queryQdcount == rhs.queryQdcount && queryAncount == rhs.queryAncount &&
      queryNscount == rhs.queryNscount && queryArcount == rhs.queryArcount &&
      queryEdnsVersion == rhs.queryEdnsVersion &&
      queryUdpSize == rhs.queryUdpSize &&
      queryOptRdataIndex == rhs.queryOptRdataIndex &&
      responseRcode == rhs.responseRcode
    }

    function Ne(rhs: QueryResponseSignature): (differ: bool)
      ensures differ <==> this != rhs
    {
      !Eq(rhs)
    }

    function Key(): QueryResponseSignature
    {
      this
    }
  }

  /** Block table's Question: indices of a name and of a ClassType. */
  datatype Question = Question(nameIndex: Index, classtypeIndex: Index)
  {
    function Eq(rhs: Question): (equal: bool)
      ensures equal <==> this == rhs
    {
      nameIndex == rhs.nameIndex && classtypeIndex == rhs.classtypeIndex
    }

    function Ne(rhs: Question): (differ: bool)
      ensures differ <==> this != rhs
    {
      !Eq(rhs)
    }

    function Key(): Question
    {
      this
    }
  }

  /** Block table's RR. The TTL is kept as the exporter stores it, in 8 bits. */
  datatype RR = RR(nameIndex: Index, classtypeIndex: Index, ttl: u8, rdataIndex: Index)
  {
    function Eq(rhs: RR): (equal: bool)
      ensures equal <==> this == rhs
    {
      nameIndex == rhs.nameIndex && classtypeIndex == rhs.classtypeIndex &&
      ttl == rhs.ttl && rdataIndex == rhs.rdataIndex
    }

    function Ne(rhs: RR): (differ: bool)
      ensures differ <==> this != rhs
    {
      !Eq(rhs)
    }

    function Key(): RR
    {
      this
    }
  }

  /** Block table's Malformed Message Data. */
  datatype MalformedMessageData = MalformedMessageData(
    serverAddressIndex: Index,
    serverPort: u16,
    mmTransportFlags: TransportFlags,
    mmPayload: ByteString)
  {
    function Eq(rhs: MalformedMessageData): (equal: bool)
      ensures equal <==> this == rhs
    {
      serverAddressIndex == rhs.serverAddressIndex &&
      serverPort == rhs.serverPort &&
      mmTransportFlags == rhs.mmTransportFlags &&
      mmPayload == rhs.mmPayload
    }

    function Ne(rhs: MalformedMessageData): (differ: bool)
      ensures differ <==> this != rhs
    {
      !Eq(rhs)
    }

    function Key(): MalformedMessageData
    {
      this
    }
  }

  datatype ResponseProcessingData = ResponseProcessingData(bailiwickIndex: Index, processingFlags: ProcessingFlags)

  datatype QueryResponseExtended = QueryResponseExtended(
    questionIndex: Index,
    answerIndex: Index,
    authorityIndex: Index,
    additionalIndex: Index)

  datatype BlockPreamble = BlockPreamble(earliestTime: u64, blockParametersIndex: Index)

  datatype BlockStatistics = BlockStatistics(
    processedMessages: nat,
    qrDataItems: nat,
    unmatchedQueries: nat,
    unmatchedResponses: nat,
    discardedOpcode: nat,
    malformedItems: nat)

  /** One query/response record of a block. */
  datatype QueryResponse = QueryResponse(
    timeOffset: u64,
    clientAddressIndex: Index,
    clientPort: u16,
    transactionId: u16,
    qrSignatureIndex: Index,
    clientHoplimit: u8,
    responseDelay: i64,
    queryNameIndex: Index,
    querySize: nat,
    responseSize: nat,
    responseProcessingData: ResponseProcessingData,
    queryExtended: QueryResponseExtended,
    responseExtended: QueryResponseExtended)

  /** The key of the address event counts of a block. */
  datatype AddressEventCount = AddressEventCount(
    aeType: AddressEventType,
    aeCode: u8,
    aeTransportFlags: TransportFlags,
    aeAddressIndex: Index)
  {
    function Eq(rhs: AddressEventCount): (equal: bool)
      ensures equal <==> this == rhs
    {
      aeType == rhs.aeType && aeCode == rhs.aeCode &&
      aeTransportFlags == rhs.aeTransportFlags &&
      aeAddressIndex == rhs.aeAddressIndex
    }

    function Ne(rhs: AddressEventCount): (differ: bool)
      ensures differ <==> this != rhs
    {
      !Eq(rhs)
    }

    function Key(): AddressEventCount
    {
      this
    }
  }

  /** One malformed message record of a block. */
  datatype MalformedMessage = MalformedMessage(
    timeOffset: u64,
    clientAddressIndex: Index,
    clientPort: u16,
    messageDataIndex: Index)

  /** A byte string stored in a block table (IP addresses, names and RDATA), looked up by its bytes. */
  datatype StringItem = StringItem(data: ByteString)
  {
    function Eq(rhs: StringItem): (equal: bool)
      ensures equal <==> this == rhs
    {
      data == rhs.data
    }

    function Ne(rhs: StringItem): (differ: bool)
      ensures differ <==> this != rhs
    {
      data != rhs.data
    }

    function Key(): ByteString
    {
      data
    }
  }

  /** A list of question or RR indices stored in a block table, looked up by the whole list, in order. */
  datatype IndexListItem = IndexListItem(list: seq<Index>)
  {
    function Eq(rhs: IndexListItem): (equal: bool)
      ensures equal <==> this == rhs
    {
      list == rhs.list
    }

    function Ne(rhs: IndexListItem): (differ: bool)
      ensures differ <==> this != rhs
    {
      list != rhs.list
    }

    function Key(): seq<Index>
    {
      list
    }
  }

  // The key functions under which the block tables look their entries up.
  const StringItemKey := (s: StringItem) => s.Key()
  const ClassTypeKey := (c: ClassType) => c.Key()
  const SignatureKey := (s: QueryResponseSignature) => s.Key()
  const IndexListKey := (l: IndexListItem) => l.Key()
  const QuestionKey := (q: Question) => q.Key()
  const RRKey := (r: RR) => r.Key()
  const MalformedMessageDataKey := (m: MalformedMessageData) => m.Key()

  /**
   * Two entities of a deduplicated type have the same key exactly when they
   * are equal, so a table keyed by `key()` never merges unequal entities nor
   * keeps two equal ones apart.
   */
  lemma KeysIdentify()
    ensures forall a: StringItem, b: StringItem :: a.Key() == b.Key() <==> a.Eq(b)
    ensures forall a: ClassType, b: ClassType :: a.Key() == b.Key() <==> a.Eq(b)
    ensures forall a: QueryResponseSignature, b: QueryResponseSignature :: a.Key() == b.Key() <==> a.Eq(b)
    ensures forall a: IndexListItem, b: IndexListItem :: a.Key() == b.Key() <==> a.Eq(b)
    ensures forall a: Question, b: Question :: a.Key() == b.Key() <==> a.Eq(b)
    ensures forall a: RR, b: RR :: a.Key() == b.Key() <==> a.Eq(b)
    ensures forall a: MalformedMessageData, b: MalformedMessageData :: a.Key() == b.Key() <==> a.Eq(b)
    ensures forall a: AddressEventCount, b: AddressEventCount :: a.Key() == b.Key() <==> a.Eq(b)
  {
  }

  /**
   * Index lists are compared in order: the same indices in another order are
   * a different list, with a different key.
   */
  lemma {:induction false} IndexListsAreOrdered(l: seq<Index>, i: nat, j: nat)
    requires i < j < |l| && l[i] != l[j]
    ensures IndexListItem(l).Ne(IndexListItem(l[i := l[j]][j := l[i]]))
  {
    assert l[i := l[j]][j := l[i]][i] == l[j];
  }
}

=== FILE: exporter.dfy ===
/**
 * `CdnsExporter`: the interface of the C-DNS library. It buffers records in
 * one block, writes the block to the encoder when the block reports that it
 * is full or when asked to, switches outputs, and closes the current file when
 * it is destroyed.
 *
 * `Valid` ties the exporter's count of blocks written to the state of the
 * encoder's log (`OutputLog.Run`): the log always follows the C-DNS file
 * format, and `blocksWritten` is the number of blocks in the current file.
 * Every public method except the destructor keeps `Valid`, so every output
 * the exporter switches away from is empty or a complete file
 * (`OutputLog.RotateClosesFile`); the destructor leaves the current file
 * terminated, and the private `WriteFileHeader` is called only on an empty
 * output, just before the first block.
 */
module Exporter {

  import opened Wrappers
  import opened BlockEntities
  import opened Block
  import opened OutputLog

  /**
   * The events `write_block(block)` adds to the log: the file header when no
   * block has been written to the current output yet, then the block.
   */
  function WriteEvents(blocksWritten: nat, parameters: seq<BlockParameters>, b: BlockValue): (events: seq<Event>)
    ensures |events| == if blocksWritten == 0 then 2 else 1
    ensures events[|events| - 1] == BlockWritten(b)
  {
    (if blocksWritten == 0 then [FileHeader(parameters)] else []) + [BlockWritten(b)]
  }

  /** Writing a block keeps the log in the file format, with one more block in the current file. */
  lemma {:induction false} WriteEventsStep(log: seq<Event>, blocksWritten: nat, parameters: seq<BlockParameters>, b: BlockValue)
    requires Run(log) == Some(if blocksWritten == 0 then Empty else Blocks(blocksWritten))
    ensures Run(log + WriteEvents(blocksWritten, parameters, b)) == Some(Blocks(blocksWritten + 1))
  {
    if blocksWritten == 0 {
      RunAppend(log, FileHeader(parameters));
      RunAppend(log + [FileHeader(parameters)], BlockWritten(b));
      assert log + WriteEvents(blocksWritten, parameters, b) == log + [FileHeader(parameters)] + [BlockWritten(b)];
    } else {
      RunAppend(log, BlockWritten(b));
    }
  }

  /** The block the exporter continues with after writing `b`: emptied, and bound to the active parameter set. */
  function Restarted(b: BlockValue, parameters: seq<BlockParameters>, active: Index): (r: BlockValue)
    requires active < |parameters|
    ensures ItemCount(r) == 0 && r.parameters == parameters[active] && r.preamble.blockParametersIndex == active
  {
    Parameterised(Cleared(b), parameters[active], active)
  }

  class CdnsExporter {
    /** The block-parameter sets of the file preamble. */
    var blockParameters: seq<BlockParameters>
    const block: CdnsBlock
    const encoder: CdnsEncoder
    var activeBlockParameters: Index
    /** The number of blocks written to the current output. */
    var blocksWritten: nat

    ghost predicate Valid()
      reads this, block, encoder
    {
      BlockValid() && LogValid()
    }

    /** The buffered block is well formed and uses one of the parameter sets, as does the active index. */
    ghost predicate BlockValid()
      reads this, block
    {
      block.Valid() &&
      0 < |blockParameters| && activeBlockParameters < |blockParameters| &&
      block.preamble.blockParametersIndex < |blockParameters| &&
      block.parameters == blockParameters[block.preamble.blockParametersIndex]
    }

    /** The log follows the file format, and the current file holds `blocksWritten` blocks. */
    ghost predicate LogValid()
      reads this, encoder
    {
      Run(encoder.log) == Some(if blocksWritten == 0 then Empty else Blocks(blocksWritten))
    }

    /**
     * `CdnsExporter(fp, out, compression)`: the buffered block uses parameter
     * set 0, which is also the active one, and nothing has been written.
     */
    constructor(parameters: seq<BlockParameters>, out: Output,
                headerSize: seq<BlockParameters> -> Positive, blockSize: BlockValue -> Positive)
      requires 0 < |parameters|
      ensures Valid() && fresh(block) && fresh(encoder)
      ensures blockParameters == parameters && activeBlockParameters == 0 && blocksWritten == 0
      ensures block.Value() == BlockValue(parameters[0], BlockPreamble(0, 0), ZeroStatistics,
                                          [], [], [], [], [], [], [], [], [], [], map[], [])
      ensures encoder.log == [] && encoder.output == out
      ensures encoder.headerSize == headerSize && encoder.blockSize == blockSize
    {
      blockParameters := parameters;
      block := new CdnsBlock(parameters[0], 0);
      encoder := new CdnsEncoder(out, headerSize, blockSize);
      activeBlockParameters := 0;
      blocksWritten := 0;
    }

    /**
     * `write_file_header()` (private): the header of a new C-DNS file, with
     * every block-parameter set, written to an output that holds nothing yet.
     */
    method WriteFileHeader() returns (written: nat)
      requires Valid() && blocksWritten == 0
      modifies encoder
      ensures encoder.log == old(encoder.log) + [FileHeader(blockParameters)]
      ensures Run(encoder.log) == Some(HeaderWritten)
      ensures encoder.output == old(encoder.output)
      ensures written == encoder.headerSize(blockParameters)
    {
      RunAppend(encoder.log, FileHeader(blockParameters));
      written := encoder.WriteFileHeader(blockParameters);
    }

    /**
     * `write_block(block)`: write any block, the buffered one or another one,
     * preceded by the file header when it is the first block of the output.
     */
    method WriteBlockOf(b: CdnsBlock) returns (written: nat)
      requires Valid()
      modifies this, encoder
      ensures Valid()
      ensures encoder.log == old(encoder.log) + WriteEvents(old(blocksWritten), blockParameters, b.Value())
      ensures encoder.output == old(encoder.output)
      ensures blocksWritten == old(blocksWritten) + 1
      ensures blockParameters == old(blockParameters) && activeBlockParameters == old(activeBlockParameters)
      ensures written == (if old(blocksWritten) == 0 then encoder.headerSize(blockParameters) else 0)
                         + encoder.blockSize(b.Value())
      ensures written > 0
    {
      var v := b.Value();
      WriteEventsStep(encoder.log, blocksWritten, blockParameters, v);
      written := 0;
      if blocksWritten == 0 {
        written := WriteFileHeader();
      }
      var blockBytes := encoder.WriteBlock(v);
      written := written + blockBytes;
      blocksWritten := blocksWritten + 1;
    }

    /**
     * `write_block()`: write the buffered block, then empty it and bind it to
     * the active parameter set; the parameter set chosen since the last write
     * shows only in the block that follows.
     */
    method WriteBlock() returns (written: nat)
      requires Valid()
      modifies this, block, encoder
      ensures Valid()
      ensures encoder.log == old(encoder.log) + WriteEvents(old(blocksWritten), blockParameters, old(block.Value()))
      ensures encoder.output == old(encoder.output)
      ensures block.Value() == Restarted(old(block.Value()), blockParameters, activeBlockParameters)
      ensures blocksWritten == old(blocksWritten) + 1
      ensures blockParameters == old(blockParameters) && activeBlockParameters == old(activeBlockParameters)
      ensures written == (if old(blocksWritten) == 0 then encoder.headerSize(blockParameters) else 0)
                         + encoder.blockSize(old(block.Value()))
      ensures written > 0
    {
      written := WriteBlockOf(block);
      block.Clear();
      block.SetBlockParameters(blockParameters[activeBlockParameters], activeBlockParameters);
    }

    /**
     * `buffer_qr(qr)`: add the record to the buffered block, and write the
     * block when that makes it full; the bytes written, or 0.
     */
    method BufferQr(record: QueryResponse) returns (written: nat)
      requires Valid()
      modifies this, block, encoder
      ensures Valid()
      ensures blockParameters == old(blockParameters) && activeBlockParameters == old(activeBlockParameters)
      ensures encoder.output == old(encoder.output)
      ensures var b := old(block.Value()).(queryResponses := old(block.Value()).queryResponses + [record]);
              if ItemCount(b) >= b.parameters.maxBlockItems then
                encoder.log == old(encoder.log) + WriteEvents(old(blocksWritten), blockParameters, b) &&
                block.Value() == Restarted(b, blockParameters, activeBlockParameters) &&
                blocksWritten == old(blocksWritten) + 1 &&
                written == (if old(blocksWritten) == 0 then encoder.headerSize(blockParameters) else 0)
                           + encoder.blockSize(b) &&
                written > 0
              else
                encoder.log == old(encoder.log) && block.Value() == b &&
                blocksWritten == old(blocksWritten) && written == 0
    {
      var full := block.AddQuestionResponseRecord(record);
      if full {
        written := WriteBlock();
      } else {
        written := 0;
      }
    }

    /**
     * `rotate_output(out, export_current_block)`: write the buffered block
     * first when asked to, close the current file with a break when it holds
     * any block, and continue on `out` with no block written.
     */
    method RotateOutput(out: Output, exportCurrentBlock: bool) returns (written: nat)
      requires Valid()
      modifies this, block, encoder
      ensures Valid()
      ensures blocksWritten == 0 && encoder.output == out
      ensures blockParameters == old(blockParameters) && activeBlockParameters == old(activeBlockParameters)
      ensures var exported := if exportCurrentBlock
                              then WriteEvents(old(blocksWritten), blockParameters, old(block.Value()))
                              else [];
              var closing := if old(blocksWritten) > 0 || exportCurrentBlock then [Break] else [];
              encoder.log == old(encoder.log) + exported + closing + [Rotate(out)]
      ensures block.Value() == if exportCurrentBlock
                               then Restarted(old(block.Value()), blockParameters, activeBlockParameters)
                               else old(block.Value())
      ensures written == (if exportCurrentBlock
                          then (if old(blocksWritten) == 0 then encoder.headerSize(blockParameters) else 0)
                               + encoder.blockSize(old(block.Value()))
                          else 0)
                         + (if old(blocksWritten) > 0 || exportCurrentBlock then BreakSize else 0)
      ensures written == 0 <==> !exportCurrentBlock && old(blocksWritten) == 0
    {
      ghost var before := encoder.log;
      written := 0;
      if exportCurrentBlock {
        written := WriteBlock();
      }
      assert encoder.log == before + if exportCurrentBlock
                                     then WriteEvents(old(blocksWritten), blockParameters, old(block.Value()))
                                     else [];
      var closing := SwitchOutput(out);
      written := written + closing;
    }

    /** The end of `rotate_output`: the break when the current file holds any block, then the switch to `out`. */
    method SwitchOutput(out: Output) returns (written: nat)
      requires Valid()
      modifies this, encoder
      ensures Valid()
      ensures blocksWritten == 0 && encoder.output == out
      ensures blockParameters == old(blockParameters) && activeBlockParameters == old(activeBlockParameters)
      ensures encoder.log == old(encoder.log) + (if old(blocksWritten) > 0 then [Break] else []) + [Rotate(out)]
      ensures written == if old(blocksWritten) > 0 then BreakSize else 0
    {
      written := 0;
      if blocksWritten > 0 {
        RunAppend(encoder.log, Break);
        written := encoder.WriteBreak();
      }
      RunAppend(encoder.log, Rotate(out));
      encoder.RotateOutput(out);
      blocksWritten := 0;
    }

    /** `get_block_item_count()` */
    method GetBlockItemCount() returns (count: nat)
      requires Valid()
      ensures count == ItemCount(block.Value())
    {
      count := block.GetItemCount();
    }

    /** `add_block_parameters(bp)`: append a parameter set to the file preamble; its index. */
    method AddBlockParameters(bp: BlockParameters) returns (index: Index)
      requires Valid()
      modifies this
      ensures Valid()
      ensures blockParameters == old(blockParameters) + [bp] && index == old(|blockParameters|)
      ensures blockParameters[index] == bp
      ensures activeBlockParameters == old(activeBlockParameters) && blocksWritten == old(blocksWritten)
    {
      blockParameters := blockParameters + [bp];
      index := |blockParameters| - 1;
    }

    /**
     * `set_active_block_parameters(index)`: choose the parameter set of the
     * blocks started from now on, when `index` names one; the buffered block
     * keeps its own.
     */
    method SetActiveBlockParameters(index: Index) returns (success: bool)
      requires Valid()
      modifies this
      ensures Valid()
      ensures success <==> index < |blockParameters|
      ensures activeBlockParameters == if success then index else old(activeBlockParameters)
      ensures blockParameters == old(blockParameters) && blocksWritten == old(blocksWritten)
      ensures block.Value() == old(block.Value())
    {
      if index >= |blockParameters| {
        return false;
      }
      activeBlockParameters := index;
      return true;
    }

    /** `get_active_block_parameters()` */
    method GetActiveBlockParameters() returns (index: Index)
      requires Valid()
      ensures index == activeBlockParameters && index < |blockParameters|
    {
      index := activeBlockParameters;
    }

    /**
     * `~CdnsExporter()`: close the current file with a break when it holds
     * any block. The output is then either untouched since it was opened or
     * a complete C-DNS file.
     */
    method Destroy() returns (written: nat)
      requires Valid()
      modifies encoder
      ensures encoder.log == old(encoder.log) + if blocksWritten > 0 then [Break] else []
      ensures encoder.output == old(encoder.output)
      ensures Run(encoder.log) == Some(if blocksWritten > 0 then Terminated(blocksWritten) else Empty)
      ensures written == if blocksWritten > 0 then BreakSize else 0
    {
      written := 0;
      if blocksWritten > 0 {
        RunAppend(encoder.log, Break);
        written := encoder.WriteBreak();
      }
    }
  }

  /** A query/response record from the client at `address`, with transaction id `id` and every other field zero. */
  function ClientRecord(address: Index, id: u16): QueryResponse
  {
    QueryResponse(0, address, 0, id, 0, 0, 0, 0, 0, 0,
                  ResponseProcessingData(0, 0), QueryResponseExtended(0, 0, 0, 0), QueryResponseExtended(0, 0, 0, 0))
  }

  /**
   * Buffering with blocks of at most two items: two records from one client
   * address share index 0 of the address table, the second record makes the
   * block full and writes it, and the next address starts again at index 0 of
   * the emptied table.
   */
  method BufferingScenario(out: Output, headerSize: seq<BlockParameters> -> Positive, blockSize: BlockValue -> Positive)
  {
    var exporter := new CdnsExporter([BlockParameters(2)], out, headerSize, blockSize);
    var a1 := exporter.block.AddIpAddress([192, 0, 2, 1]);
    assert a1 == 0;
    var written := exporter.BufferQr(ClientRecord(a1, 1));
    assert written == 0 && exporter.blocksWritten == 0;

    var a1Again := exporter.block.AddIpAddress([192, 0, 2, 1]);
    assert a1Again == 0 && |exporter.block.ipAddress| == 1;
    written := exporter.BufferQr(ClientRecord(a1Again, 2));
    assert written > 0 && exporter.blocksWritten == 1;
    assert |exporter.encoder.log| == 2 && exporter.encoder.log[1].BlockWritten?;
    assert exporter.block.ipAddress == [];

    var a2 := exporter.block.AddIpAddress([192, 0, 2, 2]);
    assert a2 == 0;
  }

  /**
   * Choosing parameter set 1 while a block is buffered leaves that block on
   * set 0 and applies to the block after the next write; an index past the
   * sets is refused.
   */
  method DeferredParametersScenario(out: Output, headerSize: seq<BlockParameters> -> Positive,
                                    blockSize: BlockValue -> Positive)
  {
    var exporter := new CdnsExporter([BlockParameters(10), BlockParameters(20)], out, headerSize, blockSize);
    var ok := exporter.SetActiveBlockParameters(2);
    assert !ok && exporter.activeBlockParameters == 0;
    ok := exporter.SetActiveBlockParameters(1);
    assert ok && exporter.block.preamble.blockParametersIndex == 0;
    var active := exporter.GetActiveBlockParameters();
    assert active == 1;

    var written := exporter.WriteBlock();
    assert exporter.block.preamble.blockParametersIndex == 1 && exporter.block.parameters == BlockParameters(20);
  }

  /**
   * Rotating an output with no block written writes nothing but the switch;
   * rotating one that holds a block closes it with a break first.
   */
  method RotationScenario(out: Output, next: Output, headerSize: seq<BlockParameters> -> Positive,
                          blockSize: BlockValue -> Positive)
  {
    var exporter := new CdnsExporter([BlockParameters(10)], out, headerSize, blockSize);
    var written := exporter.RotateOutput(next, false);
    assert written == 0 && exporter.encoder.log == [Rotate(next)];

    written := exporter.RotateOutput(out, true);
    assert written == headerSize([BlockParameters(10)]) + blockSize(BlockValue(BlockParameters(10), BlockPreamble(0, 0),
      ZeroStatistics, [], [], [], [], [], [], [], [], [], [], map[], [])) + BreakSize;
    assert exporter.blocksWritten == 0 && |exporter.encoder.log| == 5;
    assert exporter.encoder.log[1].FileHeader? && exporter.encoder.log[3] == Break;
  }
}

=== FILE: output_log.dfy ===
/**
 * The encoder beneath the exporter, seen through what it is asked to write.
 *
 * A C-DNS file (section 7 of RFC 8618) is a file header (the file type
 * identifier, the file preamble and the opening of an indefinite-length array
 * of blocks), then the blocks, then the CBOR "break" that closes the array.
 * The encoder records each request as an `Event` in a ghost log; `Run` reads
 * the log as an automaton over the state of the current output and is
 * undefined (None) as soon as the log breaks the file format.
 * `StateDescribesCurrentOutput` proves what each state means for the events
 * written since the last rotation, and `RotateClosesFile` that an output is
 * only ever left empty or as a complete file.
 */
module OutputLog {

  import opened Wrappers
  import opened Block

  /** Where the encoder writes: a file opened by name, or an open file descriptor. */
  datatype Output = FileName(name: string) | FileDescriptor(fd: int)

  datatype Event =
    | FileHeader(parameters: seq<BlockParameters>)  // file type, preamble, start of the block array
    | BlockWritten(block: BlockValue)               // one block of the array
    | Break                                         // end of the block array
    | Rotate(output: Output)                        // close the current output, open `output`

  /** How far the current output has got in the file format. */
  datatype OutputState =
    | Empty                   // nothing written since the output was opened
    | HeaderWritten           // the header, no block yet
    | Blocks(count: nat)      // the header and `count` blocks
    | Terminated(count: nat)  // a complete file of `count` blocks

  function Step(s: OutputState, e: Event): Option<OutputState>
  {
    match (s, e)
    case (Empty, FileHeader(_)) => Some(HeaderWritten)
    case (HeaderWritten, BlockWritten(_)) => Some(Blocks(1))
    case (Blocks(n), BlockWritten(_)) => Some(Blocks(n + 1))
    case (Blocks(n), Break) => Some(Terminated(n))
    case (Empty, Rotate(_)) => Some(Empty)
    case (Terminated(_), Rotate(_)) => Some(Empty)
    case _ => None
  }

  /** The state the log leaves the current output in, or None when the log breaks the format. */
  function Run(log: seq<Event>): Option<OutputState>
    decreases |log|
  {
    if log == [] then Some(Empty)
    else
      match Run(log[..|log| - 1])
      case None => None
      case Some(s) => Step(s, log[|log| - 1])
  }

  /** Running a log one event longer is one more step. */
  lemma {:induction false} RunAppend(log: seq<Event>, e: Event)
    ensures Run(log + [e]) == if Run(log).Some? then Step(Run(log).value, e) else None
  {
    assert (log + [e])[..|log|] == log;
  }

  /** Every prefix of a log that keeps the format keeps it too. */
  lemma {:induction false} RunPrefix(log: seq<Event>, k: nat)
    requires Run(log).Some? && k <= |log|
    ensures Run(log[..k]).Some?
    decreases |log|
  {
    if k == |log| {
      assert log[..k] == log;
    } else {
      var init := log[..|log| - 1];
      assert Run(init).Some?;
      assert log[..k] == init[..k];
      RunPrefix(init, k);
    }
  }

  /** The events written to the current output: those after the last rotation. */
  function CurrentOutput(log: seq<Event>): (out: seq<Event>)
    ensures |out| <= |log|
    ensures forall k :: 0 <= k < |out| ==> !out[k].Rotate?
    decreases |log|
  {
    if log == [] then []
    else if log[|log| - 1].Rotate? then []
    else CurrentOutput(log[..|log| - 1]) + [log[|log| - 1]]
  }

  /** `events` are a file header followed by `count` blocks, and by the closing break when `closed`. */
  ghost predicate FileShape(events: seq<Event>, count: nat, closed: bool)
  {
    |events| == 1 + count + (if closed then 1 else 0) &&
    events[0].FileHeader? &&
    (forall k :: 1 <= k <= count ==> events[k].BlockWritten?) &&
    (closed ==> events[count + 1] == Break)
  }

  /**
   * What the state of an output means: nothing written yet, or a header
   * followed by the counted blocks, closed by a break once terminated.
   */
  lemma {:induction false} StateDescribesCurrentOutput(log: seq<Event>)
    requires Run(log).Some?
    ensures Run(log) == Some(Empty) <==> CurrentOutput(log) == []
    ensures Run(log) == Some(HeaderWritten) ==> FileShape(CurrentOutput(log), 0, false)
    ensures Run(log).value.Blocks? ==>
              Run(log).value.count >= 1 && FileShape(CurrentOutput(log), Run(log).value.count, false)
    ensures Run(log).value.Terminated? ==>
              Run(log).value.count >= 1 && FileShape(CurrentOutput(log), Run(log).value.count, true)
    decreases |log|
  {
    if log != [] {
      var init := log[..|log| - 1];
      var e := log[|log| - 1];
      assert log == init + [e];
      RunAppend(init, e);
      StateDescribesCurrentOutput(init);
      var out := CurrentOutput(init);
      if !e.Rotate? {
        assert CurrentOutput(log) == out + [e];
        assert (out + [e])[..|out|] == out;
      }
    }
  }

  /**
   * An output is rotated away only when nothing was written to it or when it
   * holds a complete file: a header, at least one block and the break.
   */
  lemma {:induction false} RotateClosesFile(log: seq<Event>, i: nat)
    requires Run(log).Some? && i < |log| && log[i].Rotate?
    ensures var out := CurrentOutput(log[..i]);
            out == [] || (|out| >= 3 && out[0].FileHeader? && out[1].BlockWritten? && out[|out| - 1] == Break)
  {
    RunPrefix(log, i + 1);
    var before := log[..i];
    assert log[..i + 1] == before + [log[i]];
    RunAppend(before, log[i]);
    StateDescribesCurrentOutput(before);
  }

  /** A byte count that is never zero. */
  type Positive = n: nat | n > 0 witness 1

  /** The number of bytes of the CBOR "break" stop code (section 3.2.1 of RFC 8949). */
  const BreakSize: nat := 1

  /**
   * `CdnsEncoder`, as far as the exporter uses it. How many bytes a header or
   * a block encodes to is fixed by the CBOR encoding, which is not part of
   * this model: it is given by `headerSize` and `blockSize`.
   */
  class CdnsEncoder {
    ghost var log: seq<Event>
    var output: Output
    const headerSize: seq<BlockParameters> -> Positive
    const blockSize: BlockValue -> Positive

    constructor(out: Output, headerSize: seq<BlockParameters> -> Positive, blockSize: BlockValue -> Positive)
      ensures log == [] && output == out
      ensures this.headerSize == headerSize && this.blockSize == blockSize
    {
      log := [];
      output := out;
      this.headerSize := headerSize;
      this.blockSize := blockSize;
    }

    /** The file type identifier, the file preamble with `parameters`, and the start of the block array. */
    method WriteFileHeader(parameters: seq<BlockParameters>) returns (written: nat)
      modifies this
      ensures log == old(log) + [FileHeader(parameters)] && output == old(output)
      ensures written == headerSize(parameters)
    {
      log := log + [FileHeader(parameters)];
      written := headerSize(parameters);
    }

    /** One block of the block array. */
    method WriteBlock(b: BlockValue) returns (written: nat)
      modifies this
      ensures log == old(log) + [BlockWritten(b)] && output == old(output)
      ensures written == blockSize(b)
    {
      log := log + [BlockWritten(b)];
      written := blockSize(b);
    }

    /** `write_break()`: close the block array. */
    method WriteBreak() returns (written: nat)
      modifies this
      ensures log == old(log) + [Break] && output == old(output)
      ensures written == BreakSize
    {
      log := log + [Break];
      written := BreakSize;
    }

    /** `rotate_output(out)`: close the current output and continue on `out`. */
    method RotateOutput(out: Output)
      modifies this
      ensures log == old(log) + [Rotate(out)] && output == out
    {
      log := log + [Rotate(out)];
      output := out;
    }
  }
}

=== FILE: wrappers.dfy ===
/** The optional value used by lookups that may find nothing. */
module Wrappers {

  datatype Option<+T> = None | Some(value: T)
}
